=== FILE: README.md ===
# Inline script metadata of the task runner

The task runner's `/run` handler sends a task description to a generative
service. The service answers with a structured object: `python_code` (a
string) and `python_dependencies` (a list of `{module: name}` objects). The
handler turns that answer into a runnable script. It writes a header in the
shape of PEP 723 ("Inline script metadata") to `task.py`, then the code body.
The header holds:

- an empty first line, because the f-string starts with a newline;
- `# /// script`;
- `# requires-python = ">=3.11"`;
- `# dependencies = [`;
- one line `# "<module>",` per dependency, in order, with the name unescaped;
- `# ]`.

No `# ///` line closes the block.

This project models that serialiser as pure functions over strings. The
artifact is `InlineMetadata.Artifact(code, deps)`, where `deps` holds the
module names already taken out of their objects. The content written to
`task.py` is the string `InlineMetadata.Materialize(a)`.

Beside the serialiser stand two independent partners:

- `MetadataReader.ParseUnit` reads a written unit back into its artifact. It is
  proved to be the exact inverse of `Materialize` on artifacts whose names hold
  no newline. Both directions are proved: the round trip, and soundness of
  whatever the reader accepts.
- `ScriptBlock` recognises a `script` metadata block as section
  "Specification" of PEP 723 defines one. It is used to show that the header
  as written opens a block it never closes.

Modules:

- `Text` (text.dfy): IndexOf, line splitting as Python's `split("\n")` does it (`Lines`), and lines each followed by a newline (`Terminated`).
- `InlineMetadata` (inline_metadata.dfy): the header, the entries and the written unit (app.py:87-97).
- `MetadataReader` (metadata_reader.dfy): the reader that inverts the serialiser.
- `ScriptBlock` (script_block.dfy): PEP 723 block recognition, and the unit with the missing closing line added.

The lemmas that look at lines assume every module name is a single line
(`Text.SingleLines`). Nothing is escaped, so a name holding a newline spreads
over several lines. `InlineMetadata.UnescapedNamesCollide` shows one such name
that is written exactly like two plain names. The string-level lemmas
(`EntryAt`, `EntriesAppend`, `EntriesLength`, `DepLineVerbatim`) need no such
assumption.

## Model

| member | source | states |
|---|---|---|
| InlineMetadata.Materialize | app.py:95-97 | the written content begins with the whole header; everything after the header is the code body verbatim; its length is the header's plus the code's |
| InlineMetadata.UnitLines | app.py:88-97 | split into lines, the written content is the header's lines followed directly by the code's lines, with nothing between them |
| InlineMetadata.HeaderLines | app.py:88-93 | the header's lines are the empty line, `# /// script`, `# requires-python = ">=3.11"`, `# dependencies = [`, one entry line per module name in order, `# ]`, and nothing after the final newline |
| InlineMetadata.HeaderLineAt | app.py:87-93 | split into lines, the header gives |deps| + 6 pieces: five fixed lines, one entry line per dependency, and the empty piece after the final newline. Line 4+i is `# "deps[i]",` for every i, so the list has one entry line per dependency in input order; `# ]` follows the last entry |
| InlineMetadata.HeaderTerminated | app.py:88-93 | the header is its line sequence with every line ended by a newline |
| InlineMetadata.DepLineVerbatim | app.py:92 | an entry is `# "`, the module name unchanged (no escaping of quotes or anything else), then `",` and a newline; its length is the name's plus 6 |
| InlineMetadata.EntryTextInjective | app.py:92 | different module names give different entry lines |
| InlineMetadata.EntriesAppend | app.py:92 | the joined entries of a concatenated list are the entries of the first part followed by those of the second |
| InlineMetadata.EntryAt | app.py:87-92 | order is preserved: a name's entry sits after the entries of every earlier name and before those of every later name |
| InlineMetadata.EntriesLength | app.py:92 | the entries take six characters plus the name's length per dependency |
| InlineMetadata.EntriesTerminated | app.py:92 | the joined entries are the entry lines, each ended by a newline |
| InlineMetadata.EntryMultiplicity | app.py:92 | an entry line occurs in the list exactly as often as its name occurs in the input: duplicates are kept, and names not in the input get no line |
| InlineMetadata.HeaderLength | app.py:88-93 | the prefix is 62 characters and the `# ]` line is 4; the header's length is 66 plus 6 per dependency plus the names' total length |
| InlineMetadata.EmptyDependencies | app.py:91-92 | with no dependencies the header is the fixed prefix then `# ]`: `# dependencies = [` is immediately followed by `# ]` |
| InlineMetadata.HeaderNeverClosed | app.py:92-93 | no line of the header is `# ///`: the block ends at `# ]` |
| InlineMetadata.UnescapedNamesCollide | app.py:92 | a name holding `",` and a newline is written exactly like the two names on either side of them, because nothing is escaped |
| MetadataReader.ParseEntriesComplete | app.py:92-93 | reading the entries and the `# ]` line the serialiser writes recovers the names in order and leaves the text after them untouched |
| MetadataReader.ParseEntriesSound | app.py:92-93 | whatever the entry reader accepts is exactly the serialiser's entries for the names it returns, and those names are single lines |
| MetadataReader.RoundTrip | app.py:87-97 | reading back the content written for an artifact with single-line names gives that artifact |
| MetadataReader.ParseSound | app.py:87-97 | anything the reader accepts is the written content of the artifact it returns, so the reader recognises written units and nothing else |
| MetadataReader.MaterializeInjective | app.py:87-97 | with single-line names, two different artifacts are never written as the same content |
| ScriptBlock.OpenedBlockNeverClosed | app.py:88-97 | as written, the block opened on the header's second line is never closed unless a `# ///` line occurs among the comment lines the code body starts with. Code that starts with an ordinary comment such as `# Import libraries` leaves the block unclosed too |
| ScriptBlock.UnclosedExample | app.py:88-97 | the content written for code `import requests` and dependency `requests` holds no PEP 723 `script` block at all |
| ScriptBlock.ClosedUnitLines | app.py:88-93 | the corrected unit's lines are the header's lines, `# ///`, then the code's lines |
| ScriptBlock.ClosedBlockRecognised | app.py:88-93 | with the closing line added, the unit always holds a PEP 723 `script` block that opens on the header's second line, whatever the code is. When no `# ///` line occurs among the comment lines the code starts with, that block ends at the `# ///` right after `# ]`, even under PEP 723's rule that a block ends at the last `# ///` of its run of comment lines. When the code also holds no `# /// script` line, this is the unit's only `script` block |
| ScriptBlock.ClosedCodeBlockKept | app.py:88-97 | a `script` block inside the code body is still a `script` match in the corrected unit, shifted by the header's lines and the closer. When the code's first line is not a comment line, that block opens only after the header's block has closed at the line after `# ]`. The unit then holds two separate `script` blocks, which PEP 723 treats as an error |
| ScriptBlock.ClosedCodeBlockMerged | app.py:88-97 | when the code body starts with a `script` block, the header's block does not close after `# ]`. It runs on through the code's block and ends at that block's `# ///`, so a reader sees one block whose content holds `# ///` lines |
| ScriptBlock.ClosedDiffersByCloser | app.py:92-93 | the corrected unit is the written content with the one line `# ///` inserted between header and code |

## Findings

| source | as written | input that shows it | evidently intended | confidence | as-written member | corrected member |
|---|---|---|---|---|---|---|
| app.py:88-93 | the header ends at `# ]` and never writes the `# ///` line that closes a PEP 723 block, so a PEP 723 reader finds no metadata and the dependencies are not installed | code `import requests\n`, dependencies `[requests]` | a `# ///` line after `# ]`, as the file's own header at app.py:1-8 has | high; not executed | ScriptBlock.UnclosedExample | ScriptBlock.ClosedBlockRecognised |

`InlineMetadata.Materialize` stays the as-written serialiser, because that
is what app.py writes. Its partners (`MetadataReader`, `HeaderNeverClosed`)
describe that behaviour. `ScriptBlock.MaterializeClosed` is the corrected
unit, and `ScriptBlock.ClosedBlockRecognised` proves the intended property
about it.

## Left out

- FastAPI app, CORS middleware, the `/` and `/run` routes and the uvicorn entry point (app.py:17-24, 62-67, 100-102): web framework plumbing.
- Reading `AIPROXY_TOKEN` and building the request headers (app.py:25-29): ambient configuration.
- The POST to the proxy, `response.json()` and `json.loads` of the message content (app.py:68-86): network I/O and a foreign JSON parser. The model takes the code and the module names as already extracted.
- The `response_format` schema (app.py:31-60): data sent to the remote service. It only fixes the shape of `Artifact`.
- `d.get('module')` on each dependency object (app.py:92): the model takes the names directly, as the text the f-string formats each value to. A string value is its own text. For any other value the model's name is `str(value)`: a number `5` is written as `# "5",`, and an object without `module` is written as `# "None",`. app.py does not check the values, and the `response_format` it sends (app.py:31-60) lacks `"strict": true`, so the service need not keep to the schema.
- A missing `python_dependencies` or `python_code` (app.py:87, 97): the model assumes both fields are present. app.py does not check either one. A missing `python_dependencies` makes the join at app.py:92 raise a `TypeError`, and nothing is written. A missing `python_code` makes `f.write(None)` at app.py:97 raise a `TypeError` after app.py:96 has written the header, so `task.py` is left holding the header alone. The model has no artifact for either case.
- The Python version app.py itself needs: the entry expression at app.py:92 puts backslashes (`\"` and `\n`) inside an f-string replacement field. Python 3.11 rejects that at compile time ("f-string expression part cannot include a backslash"), although the header declares `requires-python = ">=3.11"`. The model gives the string Python 3.12 and later build (PEP 701). Nothing was executed to confirm this.
- ScriptBlock.ClosedBlockRecognised: does not say where the header's block ends when a `# ///` line occurs among the comment lines the code body starts with, because that line moves the block's end into the code. `ScriptBlock.ClosedCodeBlockMerged` covers the case where those lines form a whole `script` block. It also does not promise a single block when the code body holds a `# /// script` line of its own. `ScriptBlock.ClosedCodeBlockKept` shows that a block after a first line that is not a comment gives two separate blocks, which PEP 723 makes an error.
- ScriptBlock.ClosesAt: says where a block lies for a given opener, as a match of PEP 723's reference expression anchored there. It does not model `re.finditer`'s left-to-right scan, which never reports overlapping matches. `ScriptBlock.ClosedCodeBlockKept` therefore claims two blocks only when they are disjoint.
- Opening and writing `task.py` (app.py:95-97): filesystem I/O. The content is the returned string. Concurrent requests overwriting the one fixed file are a concurrency matter and are not modelled.
- Returning the service's raw answer (app.py:98): no logic.
- Reading the TOML inside a PEP 723 block: `ScriptBlock` decides only whether a block is present and where it lies. `MetadataReader` reads this serialiser's own format instead.
- The repair loop, process execution, outcome classification and path guard: app.py contains none of them, so there is nothing to model them from.

=== FILE: inline_metadata.dfy ===
/**
 The inline-script-metadata serialiser of the task runner's `/run` handler.

 The generative service answers with a code string and a list of
 `{module: name}` objects. The handler writes, to `task.py`, a header in the
 shape of PEP 723 ("Inline script metadata") that declares the minimum Python
 version and one dependency entry per module name, followed by the code body.
 Here the module names are already extracted from their objects and the file
 write is the returned string.
 */
module InlineMetadata {
  import Text

  /** What the generative service produced: the code body and the module
      names of `python_dependencies`, in the order the service listed them. */
  datatype Artifact = Artifact(code: string, deps: seq<string>)

  /** The header's lines, without their newlines. */
  const Opener: string := "# /// script"
  const RuntimeRequirement: string := "# requires-python = \">=3.11\""
  const ListOpen: string := "# dependencies = ["
  const ListClose: string := "# ]"

  /** The line that ends a PEP 723 metadata block; the header never writes it. */
  const Closer: string := "# ///"

  /** The header up to the first dependency entry: the f-string starts with a
      newline, so the header's first line is empty. */
  const Prefix: string := "\n" + Opener + "\n" + RuntimeRequirement + "\n" + ListOpen + "\n"

  /** The header after the last dependency entry. No `# ///` line follows. */
  const Suffix: string := ListClose + "\n"

  /** One dependency entry: the module name between double quotes, unescaped. */
  function DepLine(m: string): (line: string)
  {
    "# \"" + m + "\",\n"
  }

  /** All dependency entries, in the order of `deps` (the `''.join(...)`). */
  function Entries(deps: seq<string>): (entries: string)
  {
    if |deps| == 0 then "" else DepLine(deps[0]) + Entries(deps[1..])
  }

  /** The metadata block written before the code. */
  function Header(deps: seq<string>): (header: string)
  {
    Prefix + Entries(deps) + Suffix
  }

  /** The content written to `task.py`: the header, then the code body. */
  function Materialize(a: Artifact): (unit: string)
    ensures Header(a.deps) <= unit
    ensures unit[|Header(a.deps)|..] == a.code
    ensures |unit| == |Header(a.deps)| + |a.code|
  {
    Header(a.deps) + a.code
  }

  /** The written content, grouped as the fixed prefix, then everything the
      entries, the closing line and the code make up. */
  lemma MaterializeParts(a: Artifact)
    ensures Materialize(a) == Prefix + (Entries(a.deps) + Suffix + a.code)
  {
  }

  /** The entries of a list are the first name's entry, then the others'. */
  lemma EntriesCons(m: string, deps: seq<string>)
    ensures Entries([m] + deps) == DepLine(m) + Entries(deps)
  {
  }

  /** An entry line as it reads once the text is split into lines. */
  function EntryText(m: string): (line: string)
  {
    "# \"" + m + "\","
  }

  /** The entry lines of `deps`, one per module name, in order. */
  function EntryTexts(deps: seq<string>): (ls: seq<string>)
    ensures |ls| == |deps|
  {
    seq(|deps|, i requires 0 <= i < |deps| => EntryText(deps[i]))
  }

  /** The lines of the header, without their newlines. */
  function HeaderLineSeq(deps: seq<string>): (ls: seq<string>)
  {
    ["", Opener, RuntimeRequirement, ListOpen] + EntryTexts(deps) + [ListClose]
  }

  /** Sum of the lengths of the module names. */
  function NamesLength(deps: seq<string>): (total: nat)
  {
    if |deps| == 0 then 0 else |deps[0]| + NamesLength(deps[1..])
  }

  // ---------------------------------------------------------------------------
  // Entries

  /** An entry is the module name verbatim between `# "` and `",`, whatever
      characters the name holds: nothing is escaped. */
  lemma DepLineVerbatim(m: string)
    ensures |DepLine(m)| == |m| + 6
    ensures DepLine(m)[..3] == "# \""
    ensures DepLine(m)[3..|m| + 3] == m
    ensures DepLine(m)[|m| + 3..] == "\",\n"
    ensures DepLine(m) == EntryText(m) + "\n"
  {
  }

  /** Distinct module names give distinct entries. */
  lemma EntryTextInjective(m: string, n: string)
    requires EntryText(m) == EntryText(n)
    ensures m == n
  {
    assert m == EntryText(m)[3..|m| + 3];
    assert n == EntryText(n)[3..|n| + 3];
  }

  /** The entries of two lists in sequence are the entries of their concatenation. */
  lemma {:induction false} EntriesAppend(a: seq<string>, b: seq<string>)
    ensures Entries(a + b) == Entries(a) + Entries(b)
    decreases |a|
  {
    if |a| == 0 {
      assert a + b == b;
    } else {
      var t := a[1..];
      assert a == [a[0]] + t;
      assert a + b == [a[0]] + (t + b);
      EntriesAppend(t, b);
      EntriesCons(a[0], t + b);
      EntriesCons(a[0], t);
    }
  }

  /** Order is preserved: a module name's entry sits after the entries of the
      names listed before it and before the entries of those listed after it. */
  lemma EntryAt(before: seq<string>, m: string, after: seq<string>)
    ensures Entries(before + [m] + after) == Entries(before) + DepLine(m) + Entries(after)
  {
    var rest := [m] + after;
    assert Entries(rest) == DepLine(m) + Entries(after) by {
      assert rest[1..] == after;
    }
    assert before + [m] + after == before + rest;
    EntriesAppend(before, rest);
  }

  /** Each name contributes exactly `|name| + 6` characters to the entries. */
  lemma {:induction false} EntriesLength(deps: seq<string>)
    ensures |Entries(deps)| == NamesLength(deps) + 6 * |deps|
    decreases |deps|
  {
    if |deps| > 0 {
      EntriesLength(deps[1..]);
      DepLineVerbatim(deps[0]);
    }
  }

  /** The entries, split into lines, are exactly one entry line per name. */
  lemma {:induction false} EntriesTerminated(deps: seq<string>)
    ensures Entries(deps) == Text.Terminated(EntryTexts(deps))
    decreases |deps|
  {
    if |deps| > 0 {
      EntriesTerminated(deps[1..]);
      assert EntryTexts(deps)[1..] == EntryTexts(deps[1..]);
      DepLineVerbatim(deps[0]);
    }
  }

  /** Duplicates are kept and nothing is added: an entry line occurs among the
      entry lines exactly as often as its module name occurs in `deps`. */
  lemma {:induction false} EntryMultiplicity(deps: seq<string>, m: string)
    ensures multiset(EntryTexts(deps))[EntryText(m)] == multiset(deps)[m]
    decreases |deps|
  {
    if |deps| > 0 {
      EntryMultiplicity(deps[1..], m);
      assert deps == [deps[0]] + deps[1..];
      assert EntryTexts(deps) == [EntryText(deps[0])] + EntryTexts(deps[1..]);
      if EntryText(deps[0]) == EntryText(m) {
        EntryTextInjective(deps[0], m);
      }
    } else {
      assert EntryTexts(deps) == [];
    }
  }

  // ---------------------------------------------------------------------------
  // Header

  /** The header's length is the fixed prefix, six characters plus the name
      per entry, and the closing `# ]` line. */
  lemma HeaderLength(deps: seq<string>)
    ensures |Prefix| == 62 && |Suffix| == 4
    ensures |Header(deps)| == 66 + 6 * |deps| + NamesLength(deps)
  {
  }

  /** The header is the terminated sequence of its lines. */
  lemma HeaderTerminated(deps: seq<string>)
    ensures Header(deps) == Text.Terminated(HeaderLineSeq(deps))
  {
    var front := ["", Opener, RuntimeRequirement, ListOpen];
    PrefixTerminated();
    assert Text.Terminated([ListClose]) == Suffix;
    EntriesTerminated(deps);
    Text.TerminatedAppend(front, EntryTexts(deps));
    Text.TerminatedAppend(front + EntryTexts(deps), [ListClose]);
  }

  /** The fixed prefix is its four lines, each ended by a newline. */
  lemma PrefixTerminated()
    ensures Text.Terminated(["", Opener, RuntimeRequirement, ListOpen]) == Prefix
  {
    assert Text.Terminated([ListOpen]) == ListOpen + "\n";
    assert Text.Terminated([RuntimeRequirement, ListOpen]) == RuntimeRequirement + "\n" + ListOpen + "\n";
    assert Text.Terminated([Opener, RuntimeRequirement, ListOpen])
        == Opener + "\n" + RuntimeRequirement + "\n" + ListOpen + "\n";
  }

  /** With single-line names, no header line holds a newline. */
  lemma HeaderLinesSingle(deps: seq<string>)
    requires Text.SingleLines(deps)
    ensures Text.SingleLines(HeaderLineSeq(deps))
  {
    var ls := HeaderLineSeq(deps);
    forall k | 0 <= k < |ls|
      ensures '\n' !in ls[k]
    {
      if 4 <= k < 4 + |deps| {
        assert ls[k] == "# \"" + deps[k - 4] + "\",";
      }
    }
  }

  /** With single-line names, the header's lines are the empty line, the
      opener, the runtime requirement, the list opener, one entry line per
      name in order, and `# ]`; the text ends right after `# ]\n`. */
  lemma HeaderLines(deps: seq<string>)
    requires Text.SingleLines(deps)
    ensures Text.Lines(Header(deps)) == HeaderLineSeq(deps) + [""]
  {
    HeaderTerminated(deps);
    HeaderLinesSingle(deps);
    Text.LinesTerminated(HeaderLineSeq(deps), "");
    assert Text.Terminated(HeaderLineSeq(deps)) + "" == Header(deps);
    Text.LinesOfLine("");
  }

  /** The same, indexed: line 4 + i of the header is the entry of `deps[i]`,
      the list section has exactly `|deps|` lines, and `# ]` closes it. */
  lemma HeaderLineAt(deps: seq<string>)
    requires Text.SingleLines(deps)
    ensures var ls := Text.Lines(Header(deps));
      && |ls| == |deps| + 6
      && ls[0] == "" && ls[1] == Opener && ls[2] == RuntimeRequirement && ls[3] == ListOpen
      && (forall i :: 0 <= i < |deps| ==> ls[4 + i] == "# \"" + deps[i] + "\",")
      && ls[|deps| + 4] == ListClose
      && ls[|deps| + 5] == ""
  {
    HeaderLines(deps);
  }

  /** With no dependencies the list opener is immediately followed by `# ]`. */
  lemma EmptyDependencies()
    ensures Header([]) == "\n" + "# /// script\n" + "# requires-python = \">=3.11\"\n" + "# dependencies = [\n" + "# ]\n"
    ensures Header([])[|Prefix| - 19..] == "# dependencies = [\n# ]\n"
  {
    assert Entries([]) == "";
    assert Header([]) == Prefix + Suffix;
    assert |Opener| == 12 && |RuntimeRequirement| == 28 && |ListOpen| == 18;
  }

  /** The header never holds a `# ///` line closing the block: it ends at `# ]`. */
  lemma HeaderNeverClosed(deps: seq<string>)
    requires Text.SingleLines(deps)
    ensures Closer !in Text.Lines(Header(deps))
  {
    HeaderLines(deps);
    var ls := Text.Lines(Header(deps));
    forall k | 0 <= k < |ls|
      ensures ls[k] != Closer
    {
      if 4 <= k < 4 + |deps| {
        assert ls[k] == EntryText(deps[k - 4]);
        assert ls[k][2] == '"';
      }
    }
  }

  // ---------------------------------------------------------------------------
  // Materialized unit

  /** Splitting the written content into lines gives the header's lines, then
      the code's lines, with nothing in between. */
  lemma UnitLines(a: Artifact)
    requires Text.SingleLines(a.deps)
    ensures Text.Lines(Materialize(a)) == HeaderLineSeq(a.deps) + Text.Lines(a.code)
  {
    HeaderTerminated(a.deps);
    HeaderLinesSingle(a.deps);
    Text.LinesTerminated(HeaderLineSeq(a.deps), a.code);
  }

  /** Without escaping, a name holding a quote, a comma and a newline reads as
      two entries: the header of one such name equals that of two plain names. */
  lemma UnescapedNamesCollide()
    ensures Header(["a\",\n# \"b"]) == Header(["a", "b"])
  {
  }
}

=== FILE: metadata_reader.dfy ===
/**
 A reader for the content the serialiser writes: it takes the fixed prefix,
 the dependency entry lines up to `# ]`, and treats everything after as the
 code body. It is the inverse of `InlineMetadata.Materialize` on artifacts
 whose module names are single lines, and it recognises nothing else.
 */
module MetadataReader {
  import Text
  import opened InlineMetadata

  datatype Option<T> = None | Some(value: T)

  /** Reads entry lines from the start of `s` up to and including `# ]\n`;
      returns the module names in order and the text after `# ]\n`. */
  function ParseEntries(s: string): (r: Option<(seq<string>, string)>)
    decreases |s|
  {
    if |s| >= 4 && s[..4] == Suffix then Some(([], s[4..]))
    else if |s| >= 3 && s[..3] == "# \"" then
      var j := Text.IndexOf(s, '\n');
      if j == |s| || j < 5 || s[j - 2..j] != "\"," then None
      else
        match ParseEntries(s[j + 1..])
        case None => None
        case Some(r) => Some(([s[3..j - 2]] + r.0, r.1))
    else None
  }

  /** Reads a whole written unit back into the artifact it was written from. */
  function ParseUnit(s: string): (r: Option<Artifact>)
  {
    if |s| >= |Prefix| && s[..|Prefix|] == Prefix then
      match ParseEntries(s[|Prefix|..])
      case None => None
      case Some(r) => Some(Artifact(r.1, r.0))
    else None
  }

  /** One entry line, read back, yields its name and leaves the text after it. */
  lemma ParseEntriesStep(m: string, tail: string)
    requires '\n' !in m
    ensures var s := DepLine(m) + tail;
      && |s| >= 4 && s[..4] != Suffix && s[..3] == "# \""
      && Text.IndexOf(s, '\n') == |m| + 5
      && s[|m| + 3..|m| + 5] == "\"," && s[3..|m| + 3] == m && s[|m| + 6..] == tail
  {
    var s := DepLine(m) + tail;
    DepLineVerbatim(m);
    assert s == EntryText(m) + "\n" + tail;
    assert '\n' !in EntryText(m) by {
      assert EntryText(m) == "# \"" + m + "\",";
    }
    Text.IndexOfAfterLine(EntryText(m), tail);
    assert s[2] == '"';
    assert Suffix[2] == ']';
  }

  /** Reading the entries the serialiser wrote recovers the names and the rest. */
  lemma {:induction false} ParseEntriesComplete(deps: seq<string>, rest: string)
    requires Text.SingleLines(deps)
    ensures ParseEntries(Entries(deps) + Suffix + rest) == Some((deps, rest))
    decreases |deps|
  {
    var s := Entries(deps) + Suffix + rest;
    if |deps| == 0 {
      assert s == Suffix + rest;
      assert s[..4] == Suffix;
      assert s[4..] == rest;
    } else {
      var m := deps[0];
      var tail := Entries(deps[1..]) + Suffix + rest;
      assert s == DepLine(m) + tail;
      ParseEntriesStep(m, tail);
      ParseEntriesComplete(deps[1..], rest);
      assert [m] + deps[1..] == deps;
    }
  }

  /** An entry line found at the start of `s` is the entry of the name between
      its quotes, followed by the rest of `s`. */
  lemma ReassembleEntry(s: string, j: nat)
    requires 5 <= j < |s| && s[j] == '\n'
    requires s[..3] == "# \"" && s[j - 2..j] == "\","
    ensures s == DepLine(s[3..j - 2]) + s[j + 1..]
  {
  }

  /** The text read past one entry line, put back behind that entry, is the
      input; the name between the quotes is a single line. */
  lemma EntrySound(s: string, j: nat, names: seq<string>, rest: string)
    requires 5 <= j < |s| && s[j] == '\n' && '\n' !in s[..j]
    requires s[..3] == "# \"" && s[j - 2..j] == "\","
    requires Text.SingleLines(names)
    requires s[j + 1..] == Entries(names) + Suffix + rest
    ensures Text.SingleLines([s[3..j - 2]] + names)
    ensures s == Entries([s[3..j - 2]] + names) + Suffix + rest
  {
    var m := s[3..j - 2];
    assert m == s[..j][3..j - 2];
    ReassembleEntry(s, j);
    EntriesCons(m, names);
  }

  /** Whatever the entry reader accepts is exactly what the serialiser writes
      for the names it returns, and those names are single lines. */
  lemma {:induction false} ParseEntriesSound(s: string, deps: seq<string>, rest: string)
    requires ParseEntries(s) == Some((deps, rest))
    ensures Text.SingleLines(deps)
    ensures s == Entries(deps) + Suffix + rest
    decreases |s|
  {
    if |s| >= 4 && s[..4] == Suffix {
      assert s == s[..4] + s[4..];
    } else {
      var j := Text.IndexOf(s, '\n');
      var r := ParseEntries(s[j + 1..]).value;
      ParseEntriesSound(s[j + 1..], r.0, r.1);
      EntrySound(s, j, r.0, r.1);
    }
  }

  /** Round trip: reading back a written unit gives the artifact written. */
  lemma RoundTrip(a: Artifact)
    requires Text.SingleLines(a.deps)
    ensures ParseUnit(Materialize(a)) == Some(a)
  {
    var s := Materialize(a);
    MaterializeParts(a);
    assert s[..|Prefix|] == Prefix;
    assert s[|Prefix|..] == Entries(a.deps) + Suffix + a.code;
    ParseEntriesComplete(a.deps, a.code);
  }

  /** The reader accepts only written units: whatever it reads back is an
      artifact with single-line names whose unit is exactly the input. */
  lemma ParseSound(s: string, a: Artifact)
    requires ParseUnit(s) == Some(a)
    ensures Text.SingleLines(a.deps)
    ensures Materialize(a) == s
  {
    var body := s[|Prefix|..];
    var r := ParseEntries(body).value;
    ParseEntriesSound(body, r.0, r.1);
    PrefixSplit(s);
    MaterializeParts(a);
  }

  /** A string that starts with the fixed prefix is that prefix and the rest. */
  lemma PrefixSplit(s: string)
    requires |s| >= |Prefix| && s[..|Prefix|] == Prefix
    ensures s == Prefix + s[|Prefix|..]
  {
  }

  /** With single-line names, different artifacts are written as different units. */
  lemma MaterializeInjective(a: Artifact, b: Artifact)
    requires Text.SingleLines(a.deps) && Text.SingleLines(b.deps)
    requires Materialize(a) == Materialize(b)
    ensures a == b
  {
    RoundTrip(a);
    RoundTrip(b);
  }
}

=== FILE: script_block.dfy ===
/**
 Recognition of a `script` metadata block as PEP 723 ("Inline script
 metadata", section "Specification") defines it: a line `# /// script`, one
 or more comment lines (`#` alone, or `# ` followed by anything), then a line
 `# ///`. The block ends at the last `# ///` of that run of comment lines. A
 block that is opened but never closed is not a block, and tools then see no
 metadata at all; two `script` blocks are an error.

 The serialiser as written ends its header at `# ]` without the `# ///`
 line; `MaterializeClosed` is the unit with that line added, which a PEP 723
 reader recognises.
 */
module ScriptBlock {
  import Text
  import opened InlineMetadata

  /** A comment line in the sense of PEP 723: `#` alone, or `# ` and any text. */
  predicate IsCommentLine(l: string)
  {
    l == "#" || (|l| >= 2 && l[..2] == "# ")
  }

  /** Lines `a` to `b` of `ls` form a `script` block: the opener at `a`, the
      closer at `b`, at least one comment line, and only comment lines, between
      them. The match is greedy, so the block ends at the LAST closer of the
      run of comment lines after the opener: every later closer is separated
      from `b` by a line that is not a comment. */
  predicate ClosesAt(ls: seq<string>, a: nat, b: nat)
  {
    && a + 1 < b < |ls|
    && ls[a] == Opener
    && ls[b] == Closer
    && (forall k :: a < k < b ==> IsCommentLine(ls[k]))
    && (forall k :: b < k < |ls| && CloserAt(ls, k) ==> exists j :: b < j < k && !IsCommentLine(ls[j]))
  }

  /** Line `k` of `ls` is a closer. */
  predicate CloserAt(ls: seq<string>, k: nat)
  {
    k < |ls| && ls[k] == Closer
  }

  /** No closer lies in the run of comment lines that `ls` starts with: every
      closer is preceded by a line that is not a comment. */
  predicate NoLeadingCloser(ls: seq<string>)
  {
    forall k :: 0 <= k < |ls| && CloserAt(ls, k) ==> exists j :: 0 <= j < k && !IsCommentLine(ls[j])
  }

  /** Lines that do not start with a comment line hold no leading closer. */
  lemma FirstNotComment(ls: seq<string>)
    requires |ls| >= 1 && !IsCommentLine(ls[0])
    ensures NoLeadingCloser(ls)
  {
  }

  /** The text holds a `script` metadata block. */
  ghost predicate HasBlock(s: string)
  {
    exists a: nat, b: nat :: ClosesAt(Text.Lines(s), a, b)
  }

  /** The unit the serialiser evidently meant to write: the header, the closing
      `# ///` line, then the code body. */
  function MaterializeClosed(a: Artifact): (unit: string)
  {
    Header(a.deps) + Closer + "\n" + a.code
  }

  /** Every header line after the opener is a comment line; none closes the
      block and none opens another. */
  lemma HeaderTailComments(deps: seq<string>, k: nat)
    requires 2 <= k < |HeaderLineSeq(deps)|
    ensures IsCommentLine(HeaderLineSeq(deps)[k])
    ensures HeaderLineSeq(deps)[k] != Closer
    ensures HeaderLineSeq(deps)[k] != Opener
  {
    var ls := HeaderLineSeq(deps);
    if 4 <= k < 4 + |deps| {
      assert ls[k] == EntryText(deps[k - 4]);
      assert ls[k][..2] == "# ";
      assert ls[k][2] == '"';
    }
  }

  /** The header's lines followed by lines with no leading closer: the block
      opened on line 1 is never closed. */
  lemma NeverClosedLayout(deps: seq<string>, cs: seq<string>, ls: seq<string>)
    requires ls == HeaderLineSeq(deps) + cs
    requires NoLeadingCloser(cs)
    ensures forall b: nat :: !ClosesAt(ls, 1, b)
  {
    var hs := HeaderLineSeq(deps);
    forall b: nat | ClosesAt(ls, 1, b)
      ensures false
    {
      if b < |hs| {
        HeaderTailComments(deps, b);
      } else {
        forall j | 0 <= j < b - |hs|
          ensures IsCommentLine(cs[j])
        {
          assert ls[|hs| + j] == cs[j];
        }
        assert CloserAt(cs, b - |hs|);
      }
    }
  }

  /** As written: the block the header opens is never closed unless a `# ///`
      line occurs among the comment lines the code body starts with. */
  lemma OpenedBlockNeverClosed(a: Artifact)
    requires Text.SingleLines(a.deps)
    requires NoLeadingCloser(Text.Lines(a.code))
    ensures forall b: nat :: !ClosesAt(Text.Lines(Materialize(a)), 1, b)
  {
    UnitLines(a);
    NeverClosedLayout(a.deps, Text.Lines(a.code), Text.Lines(Materialize(a)));
  }

  /** A concrete unit as written, with code that starts with an import, holds
      no `script` block at all. */
  lemma UnclosedExample(a: Artifact)
    requires a == Artifact("import requests\n", ["requests"])
    ensures !HasBlock(Materialize(a))
  {
    var ls := Text.Lines(Materialize(a));
    assert forall b: nat :: !ClosesAt(ls, 1, b) by {
      ExampleLines(a);
      FirstNotComment(Text.Lines(a.code));
      OpenedBlockNeverClosed(a);
    }
    assert ls == HeaderLineSeq(["requests"]) + ["import requests", ""] by {
      ExampleLines(a);
    }
    forall x: nat, b: nat | ClosesAt(ls, x, b)
      ensures false
    {
      if x != 1 {
        OnlyOpenerAtOne(ls, x);
      }
    }
  }

  /** The lines of the concrete unit above. */
  lemma ExampleLines(a: Artifact)
    requires a == Artifact("import requests\n", ["requests"])
    ensures Text.SingleLines(a.deps)
    ensures !IsCommentLine(Text.Lines(a.code)[0])
    ensures Text.Lines(Materialize(a))
         == HeaderLineSeq(["requests"]) + ["import requests", ""]
  {
    assert Text.SingleLines(a.deps) by {
      assert '\n' !in a.deps[0];
    }
    ExampleCodeLines(a.code);
    UnitLines(a);
  }

  /** The code body of the concrete unit above is one line, not a comment. */
  lemma ExampleCodeLines(code: string)
    requires code == "import requests\n"
    ensures Text.Lines(code) == ["import requests", ""]
    ensures !IsCommentLine(Text.Lines(code)[0])
  {
    var first := "import requests";
    assert code == first + "\n" + "";
    assert '\n' !in first;
    Text.LinesCons(first, "");
    assert Text.IndexOf("", '\n') == 0;
    assert first[..2] == "im";
  }

  /** In the concrete unit above, only the second line is an opener. */
  lemma OnlyOpenerAtOne(ls: seq<string>, x: nat)
    requires ls == HeaderLineSeq(["requests"]) + ["import requests", ""]
    requires x < |ls| && x != 1
    ensures ls[x] != Opener
  {
  }

  /** The corrected unit is its header's lines and the closer, each ended by a
      newline, followed by the code. */
  lemma ClosedTerminated(a: Artifact)
    ensures MaterializeClosed(a) == Text.Terminated(HeaderLineSeq(a.deps) + [Closer]) + a.code
  {
    HeaderTerminated(a.deps);
    Text.TerminatedAppend(HeaderLineSeq(a.deps), [Closer]);
    assert Text.Terminated([Closer]) == Closer + "\n";
  }

  /** The lines of the corrected unit: the header's, the closer, then the code's. */
  lemma ClosedUnitLines(a: Artifact)
    requires Text.SingleLines(a.deps)
    ensures Text.Lines(MaterializeClosed(a)) == HeaderLineSeq(a.deps) + [Closer] + Text.Lines(a.code)
  {
    var hs := HeaderLineSeq(a.deps);
    ClosedTerminated(a);
    HeaderLinesSingle(a.deps);
    assert Text.SingleLines(hs + [Closer]);
    Text.LinesTerminated(hs + [Closer], a.code);
  }

  // ---------------------------------------------------------------------------
  // Blocks in any sequence of lines

  /** Given its opener, a block's closing line is determined: two blocks from
      the same opener end on the same line. */
  lemma ClosesAtUnique(ls: seq<string>, a: nat, b: nat)
    requires ClosesAt(ls, a, b)
    ensures forall e: nat :: ClosesAt(ls, a, e) ==> e == b
  {
    forall e: nat | ClosesAt(ls, a, e)
      ensures e == b
    {
      assert CloserAt(ls, e) && CloserAt(ls, b);
    }
  }

  /** An opener followed by comment lines up to some closer starts a block:
      the block ends at the last closer of that run of comment lines. */
  lemma {:induction false} LastCloser(ls: seq<string>, a: nat, b: nat)
    requires a + 1 < b < |ls| && ls[a] == Opener && ls[b] == Closer
    requires forall k :: a < k < b ==> IsCommentLine(ls[k])
    ensures exists e: nat :: b <= e && ClosesAt(ls, a, e)
    decreases |ls| - b
  {
    if !ClosesAt(ls, a, b) {
      var k :| b < k < |ls| && CloserAt(ls, k) && forall j :: b < j < k ==> IsCommentLine(ls[j]);
      assert IsCommentLine(ls[b]);
      LastCloser(ls, a, k);
      var e: nat :| k <= e && ClosesAt(ls, a, e);
      assert b <= e;
    }
  }

  /** A block among some lines is still a block, shifted, once other lines are
      put in front of them. */
  lemma ClosesAtShift(pre: seq<string>, ls: seq<string>, all: seq<string>, a: nat, b: nat)
    requires all == pre + ls
    requires ClosesAt(ls, a, b)
    ensures ClosesAt(all, |pre| + a, |pre| + b)
  {
    var d := |pre|;
    forall k | d + b < k < |all| && CloserAt(all, k)
      ensures exists j :: d + b < j < k && !IsCommentLine(all[j])
    {
      assert CloserAt(ls, k - d);
      var j :| b < j < k - d && !IsCommentLine(ls[j]);
      assert all[d + j] == ls[j];
    }
    forall k | d + a < k < d + b
      ensures IsCommentLine(all[k])
    {
      assert all[k] == ls[k - d];
    }
  }

  // ---------------------------------------------------------------------------
  // The corrected unit

  /** Only the header's second line opens a block. */
  lemma HeaderOpenerOnlyAtOne(deps: seq<string>, k: nat)
    requires k < |HeaderLineSeq(deps)| && k != 1
    ensures HeaderLineSeq(deps)[k] != Opener
  {
    if k >= 2 {
      HeaderTailComments(deps, k);
    }
  }

  /** In the header's lines followed by the closer and any further lines, the
      opener on line 1 is followed by comment lines up to the closer. */
  lemma ClosedLayout(deps: seq<string>, cs: seq<string>)
    ensures var hs := HeaderLineSeq(deps);
      var ls := hs + [Closer] + cs;
      && 1 + 1 < |hs| < |ls| && ls[1] == Opener && ls[|hs|] == Closer
      && forall k :: 1 < k < |hs| ==> IsCommentLine(ls[k])
  {
    var hs := HeaderLineSeq(deps);
    var ls := hs + [Closer] + cs;
    forall k | 1 < k < |hs|
      ensures IsCommentLine(ls[k])
    {
      HeaderTailComments(deps, k);
    }
  }

  /** When no closer lies among the comment lines the lines after the closer
      start with, the block opened on line 1 ends at the closer after `# ]`. */
  lemma ClosedLayoutBlock(deps: seq<string>, cs: seq<string>)
    requires NoLeadingCloser(cs)
    ensures ClosesAt(HeaderLineSeq(deps) + [Closer] + cs, 1, |deps| + 5)
  {
    var hs := HeaderLineSeq(deps);
    var ls := hs + [Closer] + cs;
    var d := |hs| + 1;
    ClosedLayout(deps, cs);
    forall k | |hs| < k < |ls| && CloserAt(ls, k)
      ensures exists j :: |hs| < j < k && !IsCommentLine(ls[j])
    {
      assert IsCommentLine(Closer);
      assert CloserAt(cs, k - d);
      var j :| 0 <= j < k - d && !IsCommentLine(cs[j]);
      assert ls[d + j] == cs[j];
    }
  }

  /** When none of the lines after the closer is an opener, every block starts
      on line 1. */
  lemma ClosedLayoutOneOpener(deps: seq<string>, cs: seq<string>, x: nat)
    requires Opener !in cs
    requires var ls := HeaderLineSeq(deps) + [Closer] + cs; x < |ls| && ls[x] == Opener
    ensures x == 1
  {
    var hs := HeaderLineSeq(deps);
    var ls := hs + [Closer] + cs;
    if x < |hs| {
      if x != 1 {
        HeaderOpenerOnlyAtOne(deps, x);
      }
    } else if x > |hs| {
      assert false;
    }
  }

  /** Corrected: with single-line names the written unit holds a `script`
      block opened on the header's second line, whatever the code body is.
      When no `# ///` line lies among the comment lines the code body starts
      with, that block closes right after `# ]`; when the code also holds no
      opener of its own, it is the unit's only block. */
  lemma ClosedBlockRecognised(a: Artifact)
    requires Text.SingleLines(a.deps)
    ensures exists b: nat :: ClosesAt(Text.Lines(MaterializeClosed(a)), 1, b)
    ensures HasBlock(MaterializeClosed(a))
    ensures NoLeadingCloser(Text.Lines(a.code))
      ==> ClosesAt(Text.Lines(MaterializeClosed(a)), 1, |a.deps| + 5)
    ensures NoLeadingCloser(Text.Lines(a.code)) && Opener !in Text.Lines(a.code)
      ==> forall x: nat, b: nat :: ClosesAt(Text.Lines(MaterializeClosed(a)), x, b)
            ==> x == 1 && b == |a.deps| + 5
  {
    var cs := Text.Lines(a.code);
    var ls := Text.Lines(MaterializeClosed(a));
    ClosedUnitLines(a);
    ClosedLayout(a.deps, cs);
    LastCloser(ls, 1, |a.deps| + 5);
    if NoLeadingCloser(cs) {
      ClosedLayoutBlock(a.deps, cs);
      if Opener !in cs {
        ClosesAtUnique(ls, 1, |a.deps| + 5);
        forall x: nat, b: nat | ClosesAt(ls, x, b)
          ensures x == 1 && b == |a.deps| + 5
        {
          ClosedLayoutOneOpener(a.deps, cs, x);
        }
      }
    }
  }

  /** A block that opens on the first line after the closer merges into the
      header's block: the run of comment lines from the header's opener goes on
      through it, so the header's block ends where that block ends. */
  lemma ClosedLayoutMerged(deps: seq<string>, cs: seq<string>, b: nat)
    requires ClosesAt(cs, 0, b)
    ensures ClosesAt(HeaderLineSeq(deps) + [Closer] + cs, 1, |deps| + 6 + b)
  {
    var pre := HeaderLineSeq(deps) + [Closer];
    var ls := pre + cs;
    ClosesAtShift(pre, cs, ls, 0, b);
    ClosedLayout(deps, cs);
    forall k | 1 < k < |deps| + 6 + b
      ensures IsCommentLine(ls[k])
    {
      if k == |deps| + 5 {
        assert IsCommentLine(Closer);
      } else if k == |deps| + 6 {
        assert IsCommentLine(Opener);
      }
    }
  }

  /** A block in the lines after the closer is still a block once the
      header's lines and the closer are put in front of them. */
  lemma ClosedLayoutShifted(deps: seq<string>, cs: seq<string>, ls: seq<string>, x: nat, b: nat)
    requires ls == HeaderLineSeq(deps) + [Closer] + cs
    requires ClosesAt(cs, x, b)
    ensures ClosesAt(ls, |deps| + 6 + x, |deps| + 6 + b)
  {
    var pre := HeaderLineSeq(deps) + [Closer];
    ClosesAtShift(pre, cs, ls, x, b);
  }

  /** When the lines after the closer do not start with a comment line, a
      block among them opens after the header's block has closed. */
  lemma ClosedLayoutApart(deps: seq<string>, cs: seq<string>, ls: seq<string>, x: nat, b: nat)
    requires ls == HeaderLineSeq(deps) + [Closer] + cs
    requires ClosesAt(cs, x, b) && !IsCommentLine(cs[0])
    ensures 0 < x && ClosesAt(ls, 1, |deps| + 5)
  {
    assert IsCommentLine(Opener);
    FirstNotComment(cs);
    ClosedLayoutBlock(deps, cs);
  }

  /** The correction does not make every unit valid. A `script` block that
      the code body holds is still a `script` match in the corrected unit.
      When the code does not begin with a comment line, that block opens after
      the header's block has closed, so the unit holds two separate `script`
      blocks, which PEP 723 makes an error. */
  lemma ClosedCodeBlockKept(a: Artifact, x: nat, b: nat)
    requires Text.SingleLines(a.deps)
    requires ClosesAt(Text.Lines(a.code), x, b)
    ensures ClosesAt(Text.Lines(MaterializeClosed(a)), |a.deps| + 6 + x, |a.deps| + 6 + b)
    ensures !IsCommentLine(Text.Lines(a.code)[0])
      ==> 0 < x && ClosesAt(Text.Lines(MaterializeClosed(a)), 1, |a.deps| + 5)
  {
    ClosedCodeBlockShifted(a, x, b);
    if !IsCommentLine(Text.Lines(a.code)[0]) {
      ClosedCodeBlockApart(a, x, b);
    }
  }

  /** The code's block, shifted past the header's lines and the closer. */
  lemma ClosedCodeBlockShifted(a: Artifact, x: nat, b: nat)
    requires Text.SingleLines(a.deps)
    requires ClosesAt(Text.Lines(a.code), x, b)
    ensures ClosesAt(Text.Lines(MaterializeClosed(a)), |a.deps| + 6 + x, |a.deps| + 6 + b)
  {
    var cs := Text.Lines(a.code);
    var ls := Text.Lines(MaterializeClosed(a));
    ClosedUnitLines(a);
    ClosedLayoutShifted(a.deps, cs, ls, x, b);
  }

  /** When the code does not begin with a comment line, its block opens after
      the header's block has closed. */
  lemma ClosedCodeBlockApart(a: Artifact, x: nat, b: nat)
    requires Text.SingleLines(a.deps)
    requires ClosesAt(Text.Lines(a.code), x, b)
    requires !IsCommentLine(Text.Lines(a.code)[0])
    ensures 0 < x && ClosesAt(Text.Lines(MaterializeClosed(a)), 1, |a.deps| + 5)
  {
    var cs := Text.Lines(a.code);
    var ls := Text.Lines(MaterializeClosed(a));
    ClosedUnitLines(a);
    ClosedLayoutApart(a.deps, cs, ls, x, b);
  }

  /** A block at the very start of the code body does not stand apart: the
      header's block runs on through it and ends at its closer, not at the
      `# ///` after `# ]`. A PEP 723 reader then sees one block whose content
      holds the code block's `# ///` lines. */
  lemma ClosedCodeBlockMerged(a: Artifact, b: nat)
    requires Text.SingleLines(a.deps)
    requires ClosesAt(Text.Lines(a.code), 0, b)
    ensures ClosesAt(Text.Lines(MaterializeClosed(a)), 1, |a.deps| + 6 + b)
    ensures !ClosesAt(Text.Lines(MaterializeClosed(a)), 1, |a.deps| + 5)
  {
    var ls := Text.Lines(MaterializeClosed(a));
    ClosedUnitLines(a);
    ClosedLayoutMerged(a.deps, Text.Lines(a.code), b);
    ClosesAtUnique(ls, 1, |a.deps| + 6 + b);
  }

  /** The correction adds exactly one line: the unit as written, with the
      closing `# ///` line inserted between the header and the code. */
  lemma ClosedDiffersByCloser(a: Artifact)
    ensures MaterializeClosed(a) == Materialize(a)[..|Header(a.deps)|] + Closer + "\n" + Materialize(a)[|Header(a.deps)|..]
  {
  }
}

=== FILE: text.dfy ===
/**
 Line-oriented helpers over strings: finding a character, splitting a string
 into lines the way Python's `s.split("\n")` does, and putting lines back
 together with every line followed by a newline.
 */
module Text {

  /** Index of the first occurrence of `c` in `s`, or `|s|` when `c` does not occur. */
  function IndexOf(s: string, c: char): (r: nat)
    ensures r <= |s|
    ensures r < |s| ==> s[r] == c
    ensures c !in s[..r]
    decreases |s|
  {
    if |s| == 0 then 0
    else if s[0] == c then 0
    else
      var r' := IndexOf(s[1..], c);
      assert s[..1 + r'] == [s[0]] + s[1..][..r'];
      1 + r'
  }

  /** Splits `s` at every newline; the newlines themselves are dropped. A string
      ending in a newline yields an empty last line, as in Python. */
  function Lines(s: string): (ls: seq<string>)
    ensures |ls| >= 1
    decreases |s|
  {
    var i := IndexOf(s, '\n');
    if i == |s| then [s] else [s[..i]] + Lines(s[i + 1..])
  }

  /** Every line followed by its own newline, concatenated. */
  function Terminated(ls: seq<string>): (s: string)
  {
    if |ls| == 0 then "" else ls[0] + "\n" + Terminated(ls[1..])
  }

  /** No line of `ls` contains a newline. */
  predicate SingleLines(ls: seq<string>)
  {
    forall i :: 0 <= i < |ls| ==> '\n' !in ls[i]
  }

  /** The first newline of `l + "\n" + rest` is the one after `l` when `l` has none. */
  lemma IndexOfAfterLine(l: string, rest: string)
    requires '\n' !in l
    ensures IndexOf(l + "\n" + rest, '\n') == |l|
  {
    var s := l + "\n" + rest;
    var r := IndexOf(s, '\n');
    assert s[|l|] == '\n';
    assert s[..|l|] == l;
  }

  /** A string without a newline is one line. */
  lemma LinesOfLine(l: string)
    requires '\n' !in l
    ensures Lines(l) == [l]
  {
  }

  /** Splitting a string that starts with a whole line yields that line first. */
  lemma LinesCons(l: string, rest: string)
    requires '\n' !in l
    ensures Lines(l + "\n" + rest) == [l] + Lines(rest)
  {
    var s := l + "\n" + rest;
    IndexOfAfterLine(l, rest);
    assert s[..|l|] == l;
    assert s[|l| + 1..] == rest;
  }

  /** Terminating a sequence of two parts terminates each part. */
  lemma {:induction false} TerminatedAppend(a: seq<string>, b: seq<string>)
    ensures Terminated(a + b) == Terminated(a) + Terminated(b)
    decreases |a|
  {
    if |a| == 0 {
      assert a + b == b;
    } else {
      TerminatedAppend(a[1..], b);
      assert (a + b)[1..] == a[1..] + b;
    }
  }

  /** Splitting text that begins with terminated single lines recovers those
      lines, then the lines of what follows. */
  lemma {:induction false} LinesTerminated(ls: seq<string>, rest: string)
    requires SingleLines(ls)
    ensures Lines(Terminated(ls) + rest) == ls + Lines(rest)
    decreases |ls|
  {
    if |ls| == 0 {
      assert Terminated(ls) + rest == rest;
    } else {
      LinesTerminated(ls[1..], rest);
      LinesTerminatedStep(ls[0], ls[1..], rest);
      assert ls == [ls[0]] + ls[1..];
    }
  }

  /** Terminating one more leading line puts it, and a newline, in front. */
  lemma TerminatedCons(l: string, ls: seq<string>, rest: string)
    ensures Terminated([l] + ls) + rest == l + "\n" + (Terminated(ls) + rest)
  {
  }

  /** The inductive step of `LinesTerminated`: one more leading line. */
  lemma LinesTerminatedStep(l: string, ls: seq<string>, rest: string)
    requires '\n' !in l
    requires Lines(Terminated(ls) + rest) == ls + Lines(rest)
    ensures Lines(Terminated([l] + ls) + rest) == [l] + ls + Lines(rest)
  {
    TerminatedCons(l, ls, rest);
    LinesCons(l, Terminated(ls) + rest);
  }
}
